=== FILE: README.md ===
# utilitylib containers in Dafny

A model of the two containers in the Kotlin library `com.gorauskas.util.structures`:

- `DoublyLinkedList<T>`, an *intrusive* doubly linked list. Each `Node` carries its own
  mutable `next`/`previous` links. The list keeps `first`, `last`, a `current` cursor and a
  `size` counter.
- `History<T>`, a browser-style history: a backward stack, a current item and a forward
  stack.

## How the model is built

- `wrappers.dfy` (`Wrappers`): `Option` stands for Kotlin's nullable references, and
  `Result` for the exceptions the containers throw.
- `seqs.dfy` (`Seqs`): sequence facts shared by both containers (distinctness, positional
  insert/delete, reversal).
- `linked_heap.dfy` (`LinkedHeap`): the node objects. Nodes have object identity and
  aliasing, so node objects live in a value-level heap `map<Ref, Node<T>>`. A field write is
  a map update. The heap is a value rather than Dafny objects with mutable fields so that every
  operation takes and returns values, with no heap effects, and its contract states the whole
  resulting list, including the links of nodes that are no longer members, which the cursor
  can still reach. Operations without loops are functions; the three loops are methods. `SplicedHeap` and `UnlinkedHeap` are the two pieces of link surgery, stated
  at the level of links, and the lemmas there show when a chain of nodes is doubly linked.
- `doubly_linked_list.dfy` (`DoublyLinkedList`): the list's fields together with that heap.
  - The members are `Nodes(s)`: the nodes reached by walking `next` from `first` exactly
    `size` times.
  - `Valid(s)` is the list invariant. The members are distinct, `size` counts them,
    consecutive members point at each other in both directions, `first`/`last` are the ends
    (or null), and the outer links are null.
  - Every operation is stated against the member sequence. For example, `insertBefore`
    yields `InsertAt(Nodes(s), i, added)`.
  - Each insert and `remove` is first written as the literal field writes of the Kotlin code
    (`BeforeWrites`, `AfterWrites`, `UnlinkFromPrevious`, `UnlinkFromNext`), then proved
    equal to the corresponding splice.
  - The three loops (`clear`, `seekNode`, `seekIndex`) are methods with loop invariants.
- `history.dfy` (`BrowserHistory`): `History(back, cur, fwd)`, each stack with its top at
  index 0 (a push prepends, a pop takes the head). All operations are pure functions.
  The getters `canMoveForward` and `canMoveBackward` (`History.kt` lines 23-24 and 29-30) are the
  functions `CanMoveForward` and `CanMoveBackward`, and the `current` getter (`History.kt` line 39)
  is `Current`.

Quirks of the code that the model keeps:

- `remove` leaves the removed node's own links and the `current` cursor as they were.
- `clear` walks from each removed node through its stale `next` link, which is why it
  empties the list. It does not reset `current`.
- `seekNode(0)` and `seekNode(size)` return `first`/`last` without moving the cursor.
- `seekIndex` of a node that is not a member returns `size + 1`.
- `insertFirst` on an empty list does not touch the new node's links.
- The `History` constructor ignores its argument.
- `next()`/`previous()` push the current item onto an `ArrayDeque`. When the current item is
  null this throws, and the model returns `Err(NullElement)`. `NullCurrentBlocksPrevious`
  shows the state is reachable through the public setter.

In the table below, `D` is `src/main/kotlin/com/gorauskas/util/structures/DoublyLinkedList.kt`
and `H` is `src/main/kotlin/com/gorauskas/util/structures/History.kt`. The source column gives
the full paths.

## Model

| member | source | states |
|---|---|---|
| LinkedHeap.SplicedHeap | src/main/kotlin/com/gorauskas/util/structures/DoublyLinkedList.kt:88-121 | placing a node between two neighbours. The node points at both, each neighbour points back at it, no other node and no payload changes, and a heap with no dangling links keeps none |
| LinkedHeap.UnlinkedHeap | src/main/kotlin/com/gorauskas/util/structures/DoublyLinkedList.kt:139-155 | unlinking: the two neighbours point at each other. The skipped node and every other node are untouched, and no dangling link appears |
| LinkedHeap.ChainOfLinked | src/main/kotlin/com/gorauskas/util/structures/DoublyLinkedList.kt:43-58 | following `next` from the head of a doubly linked chain for its length visits exactly that chain, so `first` and `size` determine the members |
| LinkedHeap.SpliceLinked | src/main/kotlin/com/gorauskas/util/structures/DoublyLinkedList.kt:88-121 | splicing a fresh node between positions k-1 and k of a linked chain gives a linked chain with the node at position k |
| LinkedHeap.UnspliceLinked | src/main/kotlin/com/gorauskas/util/structures/DoublyLinkedList.kt:139-155 | unlinking position k of a linked chain leaves the chain without it still linked in order |
| DoublyLinkedList.Alloc | src/main/kotlin/com/gorauskas/util/structures/DoublyLinkedList.kt:9-18 | the one-argument `Node` constructor gives a new node with both links null and the given payload. The list and every existing node are unchanged |
| DoublyLinkedList.AllocLinked | src/main/kotlin/com/gorauskas/util/structures/DoublyLinkedList.kt:9-13 | the three-argument `Node` constructor gives a new node with exactly the given links and payload. Its links are its own, so the list, its members and every existing node are unchanged and the invariant holds |
| DoublyLinkedList.AllocIsAllocLinked | src/main/kotlin/com/gorauskas/util/structures/DoublyLinkedList.kt:14 | the one-argument constructor is the three-argument one with both links null |
| DoublyLinkedList.Empty | src/main/kotlin/com/gorauskas/util/structures/DoublyLinkedList.kt:43-58 | a new list satisfies the invariant, has no members, is empty and has no cursor |
| DoublyLinkedList.IsEmpty | src/main/kotlin/com/gorauskas/util/structures/DoublyLinkedList.kt:63-66 | on a valid list, `first == null` holds exactly when `size` is 0 and exactly when there are no members |
| DoublyLinkedList.BeforeWritesSplice | src/main/kotlin/com/gorauskas/util/structures/DoublyLinkedList.kt:88-101 | the field writes of `insertBefore`, in source order, splice the new node between the anchor's predecessor and the anchor |
| DoublyLinkedList.AfterWritesSplice | src/main/kotlin/com/gorauskas/util/structures/DoublyLinkedList.kt:108-121 | the field writes of `insertAfter`, in source order, splice the new node between the anchor and its successor |
| DoublyLinkedList.LinkBeforeSplices | src/main/kotlin/com/gorauskas/util/structures/DoublyLinkedList.kt:88-101 | `insertBefore` on the member at position i puts the new node at position i. `first` moves only when i is 0, and nodes outside the list are untouched |
| DoublyLinkedList.LinkAfterSplices | src/main/kotlin/com/gorauskas/util/structures/DoublyLinkedList.kt:108-121 | `insertAfter` on the member at position i puts the new node at position i+1. `last` moves only when i was the end, and nodes outside the list are untouched |
| DoublyLinkedList.LastHasNoNext | src/main/kotlin/com/gorauskas/util/structures/DoublyLinkedList.kt:111-113 | for a member, `next == null` holds exactly when it is `last`, the test `insertAfter` uses to update `last` |
| DoublyLinkedList.InsertBefore | src/main/kotlin/com/gorauskas/util/structures/DoublyLinkedList.kt:88-101 | members become `old[..i] + [new] + old[i..]` where `node == old[i]`. `size` grows by one, `first` changes only if `node` was first, `last` and `current` are unchanged, and payloads and non-member nodes are untouched. The invariant is kept |
| DoublyLinkedList.InsertAfter | src/main/kotlin/com/gorauskas/util/structures/DoublyLinkedList.kt:108-121 | members become `old[..i+1] + [new] + old[i+1..]`. `size` grows by one, `last` changes only if `node` was last, and `first`, `current`, payloads and non-member nodes are unchanged. The invariant is kept |
| DoublyLinkedList.InsertFirst | src/main/kotlin/com/gorauskas/util/structures/DoublyLinkedList.kt:72-81 | prepends. On an empty list the node becomes first, last and current with size 1; otherwise `current` and `last` are unchanged |
| DoublyLinkedList.InsertLast | src/main/kotlin/com/gorauskas/util/structures/DoublyLinkedList.kt:127-133 | appends. On an empty list the node becomes first, last and current with size 1; otherwise `current` and `first` are unchanged |
| DoublyLinkedList.InsertAllLast | src/test/kotlin/DoublyLinkedListTest.kt:17-36 | `insertLast` of distinct non-member nodes one by one appends them in order. From an empty list, `size` is their number, and the first of them is `first` and `current` while the last is `last`; on a non-empty list `first` and `current` stay. Nodes that are neither members nor appended keep their links |
| DoublyLinkedList.InsertHeadLast | src/main/kotlin/com/gorauskas/util/structures/DoublyLinkedList.kt:127-133 | after `insertLast` of the first of the nodes, the list is non-empty, the others can still be appended, and the members have grown by that node |
| DoublyLinkedList.UnlinkIsUnsplice | src/main/kotlin/com/gorauskas/util/structures/DoublyLinkedList.kt:139-155 | the two halves of `remove` (predecessor or `first`, then successor or `last`) together unlink the member's position, adjust `first`/`last`/`size`, and leave the removed node's own record alone |
| DoublyLinkedList.UnlinkRemoves | src/main/kotlin/com/gorauskas/util/structures/DoublyLinkedList.kt:139-155 | `remove` of a member deletes exactly its position. The others keep their order, the cursor is unchanged, the removed node keeps its own links, and non-members are untouched |
| DoublyLinkedList.Remove | src/main/kotlin/com/gorauskas/util/structures/DoublyLinkedList.kt:139-155 | `remove(null)` changes nothing. `remove(member)` deletes exactly that member, decrements `size`, and keeps the invariant, the cursor and the removed node's own `next`/`previous` |
| DoublyLinkedList.RemoveFirst | src/main/kotlin/com/gorauskas/util/structures/DoublyLinkedList.kt:160-167 | removing the first member leaves the rest, and the removed node's stale `next` still leads to the new first member: the step `clear` relies on |
| DoublyLinkedList.Clear | src/main/kotlin/com/gorauskas/util/structures/DoublyLinkedList.kt:160-167 | on any valid list the loop terminates with `size == 0`, `first` and `last` null and `isEmpty` true. `current` and every node's payload are unchanged, and nodes that were not members keep their links |
| DoublyLinkedList.ClearThenInsertFirst | src/main/kotlin/com/gorauskas/util/structures/DoublyLinkedList.kt:160-167 | a node detached before `clear()` is still detached after it, so `insertFirst` of it makes a one-member list with that node first, last and current |
| DoublyLinkedList.ClearFirst | src/main/kotlin/com/gorauskas/util/structures/DoublyLinkedList.kt:161-162 | the start of `clear` keeps the old `first` and removes it. That node's `next` is then the new `first`; only members are written, and no node becomes a member |
| DoublyLinkedList.ClearStep | src/main/kotlin/com/gorauskas/util/structures/DoublyLinkedList.kt:163-166 | one turn of the `clear` loop removes the current first member, so the member count drops by one, or stops on an empty list. Only members are written, and no node becomes a member |
| DoublyLinkedList.SeekFirst | src/main/kotlin/com/gorauskas/util/structures/DoublyLinkedList.kt:173-176 | the cursor moves to the first member (null on an empty list), which is returned. Nothing else changes |
| DoublyLinkedList.SeekLast | src/main/kotlin/com/gorauskas/util/structures/DoublyLinkedList.kt:208-211 | the cursor moves to the last member (null on an empty list), which is returned. Nothing else changes |
| DoublyLinkedList.SeekNext | src/main/kotlin/com/gorauskas/util/structures/DoublyLinkedList.kt:195-202 | from member i with a successor, the cursor moves to member i+1, which is returned. With no cursor or at the end, the list is unchanged and `last` is returned |
| DoublyLinkedList.SeekPrevious | src/main/kotlin/com/gorauskas/util/structures/DoublyLinkedList.kt:182-189 | from member i with a predecessor, the cursor moves to member i-1, which is returned. With no cursor or at the front, the list is unchanged and `first` is returned |
| DoublyLinkedList.RemoveCurrentThenSeek | src/main/kotlin/com/gorauskas/util/structures/DoublyLinkedList.kt:182-202 | after `remove` of the member under the cursor, the cursor stays on the removed node. `seekNext()` then moves to and returns the member that followed it, or returns the new `last` when it was last; `seekPrevious()` moves to and returns the member that preceded it, or returns the new `first` when it was first |
| DoublyLinkedList.NextThenPrevious | src/main/kotlin/com/gorauskas/util/structures/DoublyLinkedList.kt:182-202 | a step forward then a step back returns the cursor to a member that is not last, and returns that member |
| DoublyLinkedList.PreviousThenNext | src/main/kotlin/com/gorauskas/util/structures/DoublyLinkedList.kt:182-202 | a step back then a step forward returns the cursor to a member that is not first, and returns that member |
| DoublyLinkedList.SeekNode | src/main/kotlin/com/gorauskas/util/structures/DoublyLinkedList.kt:216-234 | an index below 0 or above `size` fails. Index 0 and index `size` return `first` and `last` without moving the cursor. An index strictly between returns the member at that position and moves the cursor there |
| DoublyLinkedList.SeekIndex | src/main/kotlin/com/gorauskas/util/structures/DoublyLinkedList.kt:239-249 | a member's position by identity, or `size + 1` for a node that is not a member |
| DoublyLinkedList.SeekNodeThenIndex | src/main/kotlin/com/gorauskas/util/structures/DoublyLinkedList.kt:216-249 | `seekIndex(seekNode(i)) == i` for every `0 <= i < size` |
| DoublyLinkedList.SeekIndexThenNode | src/main/kotlin/com/gorauskas/util/structures/DoublyLinkedList.kt:216-249 | `seekNode(seekIndex(node))` finds `node` again for every member |
| BrowserHistory.New | src/main/kotlin/com/gorauskas/util/structures/History.kt:14-18 | whatever the argument, a new history holds nothing: no current item, and it can move neither forward nor backward |
| BrowserHistory.SetCurrent | src/main/kotlin/com/gorauskas/util/structures/History.kt:38-50 | assigning `current` stores the value and always empties the forward stack. It pushes the old current item onto the backward stack only when present, and keeps the invariant |
| BrowserHistory.Next | src/main/kotlin/com/gorauskas/util/structures/History.kt:56-63 | with forward items, the current item is pushed back and the forward top becomes current; a null current item makes the push throw. Without forward items nothing changes. The invariant is kept |
| BrowserHistory.Previous | src/main/kotlin/com/gorauskas/util/structures/History.kt:69-76 | with backward items, the current item is pushed forward and the backward top becomes current; a null current item makes the push throw. Without backward items nothing changes. The invariant is kept |
| BrowserHistory.Dump | src/main/kotlin/com/gorauskas/util/structures/History.kt:83-96 | the dump is the forward stack reversed, then the current item if present, then the backward stack, newest first. Its length is the item count |
| BrowserHistory.CanMoveIffMoves | src/main/kotlin/com/gorauskas/util/structures/History.kt:20-30 | on a valid history, `canMoveForward` (resp. `canMoveBackward`) holds exactly when `next()` (resp. `previous()`) does not return the history unchanged: it moves, or, for `previous()` with a null current item, throws |
| BrowserHistory.SetCurrentDump | src/main/kotlin/com/gorauskas/util/structures/History.kt:38-50 | after an assignment the dump is the new item, the old current item and the old backward stack. The forward items are gone from both the dump and the count |
| BrowserHistory.NextKeepsDump | src/main/kotlin/com/gorauskas/util/structures/History.kt:56-63 | `next()` changes neither the dump nor the item count |
| BrowserHistory.PreviousKeepsDump | src/main/kotlin/com/gorauskas/util/structures/History.kt:69-76 | `previous()` changes neither the dump nor the item count |
| BrowserHistory.PreviousThenNext | src/main/kotlin/com/gorauskas/util/structures/History.kt:56-76 | `previous()` then `next()` restores the exact state when there is a backward item and a current item |
| BrowserHistory.NextThenPrevious | src/main/kotlin/com/gorauskas/util/structures/History.kt:56-76 | `next()` then `previous()` restores the exact state of a valid history with a forward item |
| BrowserHistory.NullCurrentBlocksPrevious | src/main/kotlin/com/gorauskas/util/structures/History.kt:69-76 | assigning an item and then null leaves a valid history in which `previous()` throws |
| BrowserHistory.SetCurrentAtEnd | src/main/kotlin/com/gorauskas/util/structures/History.kt:38-50 | assigning a new item while standing at the newest visit extends the session by that visit |
| BrowserHistory.VisitAllFrom | src/test/kotlin/HistoryTests.kt:17-21 | assigning items one after another, starting at the newest visit of a session, ends at the newest visit of the extended session |
| BrowserHistory.VisitFromNew | src/test/kotlin/HistoryTests.kt:14-21 | a new history after assigning `vs` in order stands at the last of them, with all earlier ones behind it |
| BrowserHistory.PreviousAtPosition | src/main/kotlin/com/gorauskas/util/structures/History.kt:69-76 | within a session, `previous()` moves one visit back and stays put at the first visit |
| BrowserHistory.NextAtPosition | src/main/kotlin/com/gorauskas/util/structures/History.kt:56-63 | within a session, `next()` moves one visit on and stays put at the newest visit |
| BrowserHistory.DumpAtPosition | src/main/kotlin/com/gorauskas/util/structures/History.kt:78-96 | wherever the session stands, the dump is the visit order reversed |
| BrowserHistory.BackAtPosition | src/test/kotlin/HistoryTests.kt:40-55 | n calls of `previous()` from visit j land on visit max(j-n, 0) |
| BrowserHistory.ForwardAtPosition | src/test/kotlin/HistoryTests.kt:64-76 | n calls of `next()` from visit j land on visit min(j+n, last) |
| BrowserHistory.BrowsingSession | src/test/kotlin/HistoryTests.kt:28-93 | the string session of the tests: nine visits, one step back, ten back, one forward, four forward, two back. Each move lands where the test expects, and the dump is the visits reversed |

## Left out

- `DoublyLinkedList.dump()`, `toString` of the list and of `Node` (`D` lines 16-17 and 254-265):
  console output and string rendering of generic values.
- `src/main/kotlin/com/gorauskas/util/functions/Exposed.kt` is not part of this model. It wraps
  a database library's transaction call and a logger, with no logic of its own.
- Thread safety: the code makes no guarantees, and every operation is modelled as a single
  sequential step.
- `size` is a Kotlin `Long`; here it is an unbounded `int`, so overflow after 2^63 inserts is
  not modelled.
- `insertBefore`, `insertAfter` and `remove` with a node that is not a member corrupt the
  list and `size` in the code. The model makes membership a precondition, as it does freshness
  (not a member) for the inserted node.
- DoublyLinkedList.InsertFirst: requires the node to arrive detached (both links null) when
  the list is empty. The code does not reset its links there, and a node with stale links
  would break the invariant.
- DoublyLinkedList.InsertLast: requires the node to arrive detached when the list is empty,
  for the same reason: the code hands it to `insertFirst`, which does not reset its links.
- DoublyLinkedList.InsertAllLast: requires the first node to arrive detached when the list is
  empty, for the same reason; later nodes are appended after a member, which overwrites
  their links.
- Writing the public `var` fields directly (`first`, `last`, `current` and `size` of the list;
  `next`, `previous` and `value` of a node) is not modelled. Such writes can break every
  invariant of the list, so the model reaches states only through the constructors and the
  list's own operations.
- Nodes are modelled only within one heap that holds every node they link to. A new node's
  links must therefore point at nodes already in that heap.
- BrowserHistory.Next: returns the whole history instead of the item. The item `next()`
  returns is `Current` of the result.
- BrowserHistory.Previous: returns the whole history instead of the item. The item
  `previous()` returns is `Current` of the result.
- `java.util.ArrayDeque` is modelled as a sequence whose head is the top; its internals are
  not modelled.
- The `URL`-typed history tests exercise the same logic as the `String` ones, so only the
  latter are modelled, for any element type.
- `seekIndex` returns only the index. It has no effect on the list, so its model does not
  return one.

=== FILE: doubly_linked_list.dfy ===
/** The intrusive doubly linked list with a cursor.

    The list's own fields are `first`, `last`, `current` and `size`; the
    links live on the nodes, in `heap`, which holds every node the list or
    its caller can see: members, as well as detached or already removed
    nodes a caller still holds. */
module DoublyLinkedList {
  import opened Wrappers
  import opened Seqs
  import opened LinkedHeap

  /** The list's fields together with the node objects it can see. */
  datatype List<T> = List(
    heap: Heap<T>,
    first: Option<Ref>,
    last: Option<Ref>,
    current: Option<Ref>,
    size: int)

  /** What a cursor operation yields: the list afterwards and the node it returns. */
  datatype Moved<T> = Moved(list: List<T>, node: Option<Ref>)

  /** `seekNode` throws `IllegalArgumentException` for an index outside `0..size`. */
  datatype SeekError = IndexOutOfBounds

  // ---------------------------------------------------------------------
  // Invariant
  // ---------------------------------------------------------------------

  /** The list's members, in forward order: `size` steps from `first`. */
  function Nodes<T>(s: List<T>): seq<Ref> {
    if s.size <= 0 then [] else Chain(s.heap, s.first, s.size)
  }

  /** `s` is a well-formed list whose members, in order, are `ns`. */
  predicate Shape<T>(s: List<T>, ns: seq<Ref>) {
    && s.size == |ns|
    && Distinct(ns)
    && Linked(s.heap, ns)
    && Closed(s.heap)
    && (s.current.Some? ==> s.current.value in s.heap)
    && (ns == [] ==> s.first.None? && s.last.None?)
    && (ns != [] ==>
          && s.first == Some(ns[0]) && s.last == Some(ns[|ns| - 1])
          && s.heap[ns[0]].previous.None? && s.heap[ns[|ns| - 1]].next.None?)
  }

  /** The list invariant: `size` counts the nodes from `first` to `last`,
      which are distinct and doubly linked, with null outer links. */
  predicate Valid<T>(s: List<T>) {
    Shape(s, Nodes(s))
  }

  /** A list shaped like `ns` has exactly the members `ns`, and is valid. */
  lemma ShapeIsValid<T>(s: List<T>, ns: seq<Ref>)
    requires Shape(s, ns)
    ensures Nodes(s) == ns && Valid(s)
  {
    if ns != [] {
      ChainOfLinked(s.heap, ns);
    }
  }

  /** The neighbours of the member at position `i`. */
  lemma Neighbours<T>(s: List<T>, ns: seq<Ref>, i: int)
    requires Shape(s, ns) && 0 <= i < |ns|
    ensures ns[i] in s.heap
    ensures s.heap[ns[i]].previous == Before(ns, i)
    ensures s.heap[ns[i]].next == At(ns, i + 1)
  {
    if i > 0 {
      assert Adjacent(s.heap, ns[i - 1], ns[i]);
    }
    if i < |ns| - 1 {
      assert Adjacent(s.heap, ns[i], ns[i + 1]);
    }
  }

  /** Moving the cursor to any node of the heap keeps the list valid. */
  lemma CursorMoved<T>(s: List<T>, c: Option<Ref>)
    requires Valid(s) && (c.Some? ==> c.value in s.heap)
    ensures Valid(s.(current := c)) && Nodes(s.(current := c)) == Nodes(s)
  {
    ShapeIsValid(s.(current := c), Nodes(s));
  }

  /** The links of a cursor that sits on a member lead to its neighbours. */
  lemma CursorNeighbours<T>(s: List<T>)
    requires Valid(s)
    ensures s.current.Some? && s.current.value in Nodes(s) ==>
      var i := IndexOf(Nodes(s), s.current.value);
      && s.heap[s.current.value].previous == Before(Nodes(s), i)
      && s.heap[s.current.value].next == At(Nodes(s), i + 1)
  {
    if s.current.Some? && s.current.value in Nodes(s) {
      Neighbours(s, Nodes(s), IndexOf(Nodes(s), s.current.value));
    }
  }

  /** Splice writes, with `first`, `last` and `size` adjusted, put `added`
      at position `k` of the member sequence. */
  lemma Spliced<T>(s: List<T>, ns: seq<Ref>, k: int, added: Ref, r: List<T>)
    requires Shape(s, ns) && 0 <= k <= |ns|
    requires added in s.heap && added !in ns
    requires k > 0 && k < |ns| ==> ns[k - 1] != ns[k]
    requires r.heap == SplicedHeap(s.heap, Before(ns, k), At(ns, k), added)
    requires r.first == (if k == 0 then Some(added) else s.first)
    requires r.last == (if k == |ns| then Some(added) else s.last)
    requires r.size == s.size + 1 && r.current == s.current
    ensures Shape(r, InsertAt(ns, k, added))
    ensures SameObjects(s.heap, r.heap)
    ensures UnchangedOutside(s.heap, r.heap, ns + [added])
  {
    var ns' := InsertAt(ns, k, added);
    DistinctInsert(ns, k, added);
    SpliceLinked(s.heap, ns, k, added);
    InsertAtEnds(ns, k, added);
    if k < |ns| { Neighbours(s, ns, k); }
    if k > 0 { Neighbours(s, ns, k - 1); }
    if ns != [] {
      assert r.heap[ns'[0]].previous.None? by {
        if k > 0 { assert r.heap[ns[0]].previous == s.heap[ns[0]].previous; }
      }
      assert r.heap[ns'[|ns'| - 1]].next.None? by {
        if k < |ns| { assert r.heap[ns[|ns| - 1]].next == s.heap[ns[|ns| - 1]].next; }
      }
    }
  }

  /** Unlink writes, with `first`, `last` and `size` adjusted, delete
      position `k` from the member sequence. */
  lemma Unspliced<T>(s: List<T>, ns: seq<Ref>, k: int, r: List<T>)
    requires Shape(s, ns) && 0 <= k < |ns|
    requires k > 0 && k + 1 < |ns| ==> ns[k - 1] != ns[k + 1]
    requires r.heap == UnlinkedHeap(s.heap, Before(ns, k), At(ns, k + 1))
    requires r.first == (if k == 0 then At(ns, 1) else s.first)
    requires r.last == (if k == |ns| - 1 then Before(ns, k) else s.last)
    requires r.size == s.size - 1 && r.current == s.current
    ensures Shape(r, DeleteAt(ns, k))
    ensures SameObjects(s.heap, r.heap)
    ensures UnchangedOutside(s.heap, r.heap, ns)
  {
    DistinctDelete(ns, k);
    UnspliceLinked(s.heap, ns, k);
    if k > 0 { Neighbours(s, ns, k - 1); }
    if k < |ns| - 1 { Neighbours(s, ns, k + 1); }
  }

  // ---------------------------------------------------------------------
  // Construction and queries
  // ---------------------------------------------------------------------

  /** A new list: no first, last or current node and size 0. */
  function Empty<T>(heap: Heap<T>): (s: List<T>)
    requires Closed(heap)
    ensures Valid(s) && Nodes(s) == [] && IsEmpty(s)
    ensures s.current.None?
  {
    List(heap, None, None, None, 0)
  }

  /** `Node(value)`: a new node object with both links null. */
  function Alloc<T>(s: List<T>, handle: Ref, value: Option<T>): (r: List<T>)
    requires Valid(s) && handle !in s.heap
    ensures Valid(r) && Nodes(r) == Nodes(s)
    ensures Detached(r.heap, handle) && r.heap[handle].value == value
    ensures r.heap.Keys == s.heap.Keys + {handle}
    ensures forall x :: x in s.heap ==> r.heap[x] == s.heap[x]
    ensures r.first == s.first && r.last == s.last && r.current == s.current && r.size == s.size
  {
    var r := s.(heap := s.heap[handle := Node(None, None, value)]);
    ShapeIsValid(r, Nodes(s));
    r
  }

  /** `Node(next, previous, value)`: a new node object whose links point
      wherever the caller says. The links are the new node's own, so no
      other node and no member of the list changes. */
  function AllocLinked<T>(s: List<T>, handle: Ref, next: Option<Ref>, previous: Option<Ref>, value: Option<T>): (r: List<T>)
    requires Valid(s) && handle !in s.heap
    requires next.Some? ==> next.value in s.heap
    requires previous.Some? ==> previous.value in s.heap
    ensures Valid(r) && Nodes(r) == Nodes(s)
    ensures r.heap.Keys == s.heap.Keys + {handle}
    ensures r.heap[handle] == Node(next, previous, value)
    ensures forall x :: x in s.heap ==> r.heap[x] == s.heap[x]
    ensures r.first == s.first && r.last == s.last && r.current == s.current && r.size == s.size
  {
    var r := s.(heap := s.heap[handle := Node(next, previous, value)]);
    assert Closed(r.heap) by {
      forall x | x in r.heap
        ensures LinksIn(r.heap, r.heap[x])
      {
        if x != handle { assert LinksIn(s.heap, s.heap[x]); }
      }
    }
    ShapeIsValid(r, Nodes(s));
    r
  }

  /** The one-argument constructor is the three-argument one with null links. */
  lemma AllocIsAllocLinked<T>(s: List<T>, handle: Ref, value: Option<T>)
    requires Valid(s) && handle !in s.heap
    ensures Alloc(s, handle, value) == AllocLinked(s, handle, None, None, value)
  {
  }

  /** `isEmpty`: true exactly when the list has no members. */
  function IsEmpty<T>(s: List<T>): (b: bool)
    ensures Valid(s) ==> (b <==> s.size == 0) && (b <==> Nodes(s) == [])
  {
    s.first.None?
  }

  // ---------------------------------------------------------------------
  // Insertion
  // ---------------------------------------------------------------------

  /** The field writes of `insertBefore(node, added)`, in source order. */
  function BeforeWrites<T>(heap: Heap<T>, node: Ref, added: Ref): Heap<T>
    requires node in heap && added in heap && node != added
    requires LinksIn(heap, heap[node])
  {
    var h1 := WithNext(heap, added, Some(node));
    var h2 :=
      if h1[node].previous.None? then WithPrevious(h1, added, None)
      else
        var p := h1[node].previous.value;
        WithNext(WithPrevious(h1, added, Some(p)), p, Some(added));
    WithPrevious(h2, node, Some(added))
  }

  /** The writes of `insertBefore` splice `added` between `node` and its predecessor. */
  lemma BeforeWritesSplice<T>(heap: Heap<T>, node: Ref, added: Ref)
    requires node in heap && added in heap && node != added
    requires LinksIn(heap, heap[node])
    requires heap[node].previous != Some(added) && heap[node].previous != Some(node)
    ensures BeforeWrites(heap, node, added) == SplicedHeap(heap, heap[node].previous, Some(node), added)
  {
    var left := heap[node].previous;
    var h1 := WithNext(heap, added, Some(node));
    assert h1[node] == heap[node];
    if left.Some? {
      assert h1[left.value] == heap[left.value];
    }
  }

  /** The field writes of `insertAfter(node, added)`, in source order. */
  function AfterWrites<T>(heap: Heap<T>, node: Ref, added: Ref): Heap<T>
    requires node in heap && added in heap && node != added
    requires LinksIn(heap, heap[node])
  {
    var h1 := WithPrevious(heap, added, Some(node));
    var h2 :=
      if h1[node].next.None? then WithNext(h1, added, None)
      else
        var n := h1[node].next.value;
        WithPrevious(WithNext(h1, added, Some(n)), n, Some(added));
    WithNext(h2, node, Some(added))
  }

  /** The writes of `insertAfter` splice `added` between `node` and its successor. */
  lemma AfterWritesSplice<T>(heap: Heap<T>, node: Ref, added: Ref)
    requires node in heap && added in heap && node != added
    requires LinksIn(heap, heap[node])
    requires heap[node].next != Some(added) && heap[node].next != Some(node)
    ensures AfterWrites(heap, node, added) == SplicedHeap(heap, Some(node), heap[node].next, added)
  {
    var right := heap[node].next;
    var h1 := WithPrevious(heap, added, Some(node));
    assert h1[node] == heap[node];
    if right.Some? {
      assert h1[right.value] == heap[right.value];
    }
  }

  /** `insertBefore(node, added)` on the list's fields: the writes on the
      nodes, `first` when `node` was first, and the size. */
  function LinkBefore<T>(s: List<T>, node: Ref, added: Ref): List<T>
    requires node in s.heap && added in s.heap && node != added
    requires LinksIn(s.heap, s.heap[node])
  {
    s.(heap := BeforeWrites(s.heap, node, added),
       first := if s.heap[node].previous.None? then Some(added) else s.first,
       size := s.size + 1)
  }

  /** `insertAfter(node, added)` on the list's fields: the writes on the
      nodes, `last` when `node` was last, and the size. */
  function LinkAfter<T>(s: List<T>, node: Ref, added: Ref): List<T>
    requires node in s.heap && added in s.heap && node != added
    requires LinksIn(s.heap, s.heap[node])
  {
    s.(heap := AfterWrites(s.heap, node, added),
       last := if s.heap[node].next.None? then Some(added) else s.last,
       size := s.size + 1)
  }

  /** `insertBefore` on the member at position `i` splices `added` in at `i`. */
  lemma LinkBeforeSplices<T>(s: List<T>, ns: seq<Ref>, i: int, added: Ref)
    requires Shape(s, ns) && 0 <= i < |ns|
    requires added in s.heap && added !in ns
    ensures ns[i] in s.heap && LinksIn(s.heap, s.heap[ns[i]]) && ns[i] != added
    ensures Shape(LinkBefore(s, ns[i], added), InsertAt(ns, i, added))
    ensures LinkBefore(s, ns[i], added).first == (if i == 0 then Some(added) else s.first)
    ensures SameObjects(s.heap, LinkBefore(s, ns[i], added).heap)
    ensures UnchangedOutside(s.heap, LinkBefore(s, ns[i], added).heap, ns + [added])
  {
    var node := ns[i];
    Neighbours(s, ns, i);
    assert LinksIn(s.heap, s.heap[node]);
    assert i > 0 ==> ns[i - 1] != ns[i];
    var r := s.(heap := SplicedHeap(s.heap, Before(ns, i), At(ns, i), added),
                first := if i == 0 then Some(added) else s.first,
                size := s.size + 1);
    Spliced(s, ns, i, added, r);
    assert LinkBefore(s, node, added) == r by {
      BeforeWritesSplice(s.heap, node, added);
    }
  }

  /** `insertAfter` on the member at position `i` splices `added` in at `i + 1`. */
  lemma LinkAfterSplices<T>(s: List<T>, ns: seq<Ref>, i: int, added: Ref)
    requires Shape(s, ns) && 0 <= i < |ns|
    requires added in s.heap && added !in ns
    ensures ns[i] in s.heap && LinksIn(s.heap, s.heap[ns[i]]) && ns[i] != added
    ensures Shape(LinkAfter(s, ns[i], added), InsertAt(ns, i + 1, added))
    ensures LinkAfter(s, ns[i], added).last == (if i + 1 == |ns| then Some(added) else s.last)
    ensures SameObjects(s.heap, LinkAfter(s, ns[i], added).heap)
    ensures UnchangedOutside(s.heap, LinkAfter(s, ns[i], added).heap, ns + [added])
  {
    var node := ns[i];
    Neighbours(s, ns, i);
    assert LinksIn(s.heap, s.heap[node]);
    assert i + 1 < |ns| ==> ns[i] != ns[i + 1];
    var r := s.(heap := SplicedHeap(s.heap, Before(ns, i + 1), At(ns, i + 1), added),
                last := if i + 1 == |ns| then Some(added) else s.last,
                size := s.size + 1);
    Spliced(s, ns, i + 1, added, r);
    assert LinkAfter(s, node, added) == r by {
      AfterWritesSplice(s.heap, node, added);
    }
  }

  /** A member is `last` exactly when its `next` link is null. */
  lemma LastHasNoNext<T>(s: List<T>, node: Ref)
    requires Valid(s) && node in Nodes(s)
    ensures node in s.heap
    ensures s.heap[node].next.None? <==> s.last == Some(node)
  {
    var ns := Nodes(s);
    Neighbours(s, ns, IndexOf(ns, node));
    IndexOfDistinct(ns, |ns| - 1);
  }

  /** `insertBefore(node, added)`: `added` becomes the member just before `node`. */
  function InsertBefore<T>(s: List<T>, node: Ref, added: Ref): (r: List<T>)
    requires Valid(s) && node in Nodes(s)
    requires added in s.heap && added !in Nodes(s)
    ensures Valid(r)
    ensures Nodes(r) == InsertAt(Nodes(s), IndexOf(Nodes(s), node), added)
    ensures r.size == s.size + 1
    ensures r.first == (if s.first == Some(node) then Some(added) else s.first)
    ensures r.last == s.last && r.current == s.current
    ensures SameObjects(s.heap, r.heap)
    ensures UnchangedOutside(s.heap, r.heap, Nodes(s) + [added])
  {
    var ns := Nodes(s);
    var i := IndexOf(ns, node);
    var r := LinkBefore(s, node, added);
    LinkBeforeSplices(s, ns, i, added);
    ShapeIsValid(r, InsertAt(ns, i, added));
    r
  }

  /** `insertAfter(node, added)`: `added` becomes the member just after `node`. */
  function InsertAfter<T>(s: List<T>, node: Ref, added: Ref): (r: List<T>)
    requires Valid(s) && node in Nodes(s)
    requires added in s.heap && added !in Nodes(s)
    ensures Valid(r)
    ensures Nodes(r) == InsertAt(Nodes(s), IndexOf(Nodes(s), node) + 1, added)
    ensures r.size == s.size + 1
    ensures r.last == (if s.last == Some(node) then Some(added) else s.last)
    ensures r.first == s.first && r.current == s.current
    ensures SameObjects(s.heap, r.heap)
    ensures UnchangedOutside(s.heap, r.heap, Nodes(s) + [added])
  {
    var ns := Nodes(s);
    var i := IndexOf(ns, node);
    var r := LinkAfter(s, node, added);
    LinkAfterSplices(s, ns, i, added);
    ShapeIsValid(r, InsertAt(ns, i + 1, added));
    IndexOfDistinct(ns, |ns| - 1);
    r
  }

  /** `insertFirst(added)`. On an empty list `added` becomes first, last and
      current without its links being touched, so it must arrive detached. */
  function InsertFirst<T>(s: List<T>, added: Ref): (r: List<T>)
    requires Valid(s) && added in s.heap && added !in Nodes(s)
    requires s.first.None? ==> Detached(s.heap, added)
    ensures Valid(r) && Nodes(r) == [added] + Nodes(s) && r.size == s.size + 1
    ensures r.first == Some(added)
    ensures r.current == (if s.size == 0 then Some(added) else s.current)
    ensures r.last == (if s.size == 0 then Some(added) else s.last)
    ensures SameObjects(s.heap, r.heap)
    ensures UnchangedOutside(s.heap, r.heap, Nodes(s) + [added])
  {
    if s.first.None? then
      var r := s.(first := Some(added), last := Some(added), current := Some(added), size := s.size + 1);
      assert Linked(r.heap, [added]);
      ShapeIsValid(r, [added]);
      r
    else
      var ns := Nodes(s);
      assert InsertAt(ns, 0, added) == [added] + ns;
      InsertBefore(s, s.first.value, added)
  }

  /** `insertLast(added)`: append, via `insertFirst` when the list is empty. */
  function InsertLast<T>(s: List<T>, added: Ref): (r: List<T>)
    requires Valid(s) && added in s.heap && added !in Nodes(s)
    requires s.last.None? ==> Detached(s.heap, added)
    ensures Valid(r) && Nodes(r) == Nodes(s) + [added] && r.size == s.size + 1
    ensures r.last == Some(added)
    ensures r.current == (if s.size == 0 then Some(added) else s.current)
    ensures r.first == (if s.size == 0 then Some(added) else s.first)
    ensures SameObjects(s.heap, r.heap)
    ensures UnchangedOutside(s.heap, r.heap, Nodes(s) + [added])
  {
    if s.last.None? then
      InsertFirst(s, added)
    else
      var ns := Nodes(s);
      IndexOfDistinct(ns, |ns| - 1);
      assert InsertAt(ns, |ns|, added) == ns + [added];
      InsertAfter(s, s.last.value, added)
  }

  /** `added` can be appended to `s` one node at a time: the nodes are
      distinct, in the heap and not members, and the one that lands in an
      empty list arrives detached. */
  predicate Appendable<T>(s: List<T>, added: seq<Ref>) {
    && Valid(s) && Distinct(added)
    && (forall i :: 0 <= i < |added| ==> added[i] in s.heap && added[i] !in Nodes(s))
    && (s.size == 0 && added != [] ==> Detached(s.heap, added[0]))
  }

  /** Appending fresh nodes one by one with `insertLast`, as a caller builds
      a list: the members become `added`, in order, after the old ones. */
  function InsertAllLast<T>(s: List<T>, added: seq<Ref>): (r: List<T>)
    requires Appendable(s, added)
    ensures Valid(r) && Nodes(r) == Nodes(s) + added && r.size == s.size + |added|
    ensures r.current == (if s.size == 0 && added != [] then Some(added[0]) else s.current)
    ensures r.first == (if s.size == 0 && added != [] then Some(added[0]) else s.first)
    ensures r.last == (if added != [] then Some(added[|added| - 1]) else s.last)
    ensures SameObjects(s.heap, r.heap)
    ensures UnchangedOutside(s.heap, r.heap, Nodes(s) + added)
    decreases |added|
  {
    if added == [] then
      assert Nodes(s) + added == Nodes(s);
      s
    else
      InsertHeadLast(s, added);
      InsertAllLast(InsertLast(s, added[0]), added[1..])
  }

  /** One turn of `InsertAllLast`: the head of `added` can be appended, and
      afterwards the rest still can, with the members grown by the head. */
  lemma InsertHeadLast<T>(s: List<T>, added: seq<Ref>)
    requires Appendable(s, added) && added != []
    ensures added[0] in s.heap && added[0] !in Nodes(s)
    ensures s.last.None? ==> Detached(s.heap, added[0])
    ensures var m := InsertLast(s, added[0]);
      && Appendable(m, added[1..]) && m.size != 0
      && Nodes(s) + added == Nodes(m) + added[1..]
      && (added[1..] != [] ==> added[1..][|added[1..]| - 1] == added[|added| - 1])
  {
    assert added[0] in s.heap && added[0] !in Nodes(s);
    var m := InsertLast(s, added[0]);
    var rest := added[1..];
    forall i | 0 <= i < |rest|
      ensures rest[i] in m.heap && rest[i] !in Nodes(m)
    {
      assert rest[i] == added[i + 1];
      assert added[i + 1] in s.heap && added[i + 1] != added[0];
    }
    AppendHead(Nodes(s), added);
  }

  // ---------------------------------------------------------------------
  // Removal
  // ---------------------------------------------------------------------

  /** First half of `remove(x)`: the predecessor, or else `first`, skips `x`. */
  function UnlinkFromPrevious<T>(s: List<T>, x: Ref): List<T>
    requires x in s.heap && LinksIn(s.heap, s.heap[x])
  {
    var n := s.heap[x];
    if n.previous.None? then s.(first := n.next)
    else s.(heap := WithNext(s.heap, n.previous.value, n.next))
  }

  /** Second half of `remove(x)`, run on the result of the first: the
      successor, or else `last`, skips `x`; `size` drops by one. */
  function UnlinkFromNext<T>(s: List<T>, x: Ref): List<T>
    requires x in s.heap && LinksIn(s.heap, s.heap[x])
  {
    var n := s.heap[x];
    if n.next.None? then s.(last := n.previous, size := s.size - 1)
    else s.(heap := WithPrevious(s.heap, n.next.value, n.previous), size := s.size - 1)
  }

  /** The two halves of `remove` on a member together unlink its position. */
  lemma UnlinkIsUnsplice<T>(s: List<T>, x: Ref)
    requires Valid(s) && x in Nodes(s)
    ensures x in s.heap && LinksIn(s.heap, s.heap[x])
    ensures var ns, i, r := Nodes(s), IndexOf(Nodes(s), x), UnlinkFromNext(UnlinkFromPrevious(s, x), x);
      && (i > 0 && i + 1 < |ns| ==> ns[i - 1] != ns[i + 1])
      && r.heap == UnlinkedHeap(s.heap, Before(ns, i), At(ns, i + 1))
      && r.first == (if i == 0 then At(ns, 1) else s.first)
      && r.last == (if i == |ns| - 1 then Before(ns, i) else s.last)
      && r.size == s.size - 1 && r.current == s.current
      && r.heap[x] == s.heap[x]
  {
    var ns, i := Nodes(s), IndexOf(Nodes(s), x);
    Neighbours(s, ns, i);
    var n := s.heap[x];
    assert LinksIn(s.heap, n);
    assert i > 0 ==> ns[i - 1] != x;
    assert i + 1 < |ns| ==> ns[i + 1] != x;
    assert i > 0 && i + 1 < |ns| ==> ns[i - 1] != ns[i + 1];
    var h1 := if i > 0 then WithNext(s.heap, ns[i - 1], At(ns, i + 1)) else s.heap;
    var m := UnlinkFromPrevious(s, x);
    assert m.heap == h1;
    assert m.heap[x] == n;
    var r := UnlinkFromNext(m, x);
    assert r.heap == (if i < |ns| - 1 then WithPrevious(h1, ns[i + 1], Before(ns, i)) else h1);
  }

  /** `remove(x)` of a node: both halves in source order. */
  function Unlink<T>(s: List<T>, x: Ref): List<T>
    requires x in s.heap && LinksIn(s.heap, s.heap[x])
  {
    UnlinkFromNext(UnlinkFromPrevious(s, x), x)
  }

  /** `remove` of a member deletes its position and leaves the node's own
      record, and every node outside the list, untouched. */
  lemma UnlinkRemoves<T>(s: List<T>, x: Ref)
    requires Valid(s) && x in Nodes(s)
    ensures x in s.heap && LinksIn(s.heap, s.heap[x])
    ensures Shape(Unlink(s, x), DeleteAt(Nodes(s), IndexOf(Nodes(s), x)))
    ensures Unlink(s, x).current == s.current
    ensures SameObjects(s.heap, Unlink(s, x).heap)
    ensures UnchangedOutside(s.heap, Unlink(s, x).heap, Nodes(s))
    ensures Unlink(s, x).heap[x] == s.heap[x]
  {
    UnlinkIsUnsplice(s, x);
    Unspliced(s, Nodes(s), IndexOf(Nodes(s), x), Unlink(s, x));
  }

  /** `remove(node)`: null is ignored; a member is unlinked from its
      neighbours. The removed node keeps its own links, and the cursor stays
      where it was, even when it points at the removed node. */
  function Remove<T>(s: List<T>, node: Option<Ref>): (r: List<T>)
    requires Valid(s) && (node.Some? ==> node.value in Nodes(s))
    ensures Valid(r)
    ensures node.None? ==> r == s
    ensures node.Some? ==> Nodes(r) == DeleteAt(Nodes(s), IndexOf(Nodes(s), node.value))
    ensures node.Some? ==> r.size == s.size - 1
    ensures r.current == s.current
    ensures SameObjects(s.heap, r.heap)
    ensures node.Some? ==> r.heap[node.value] == s.heap[node.value]
    ensures UnchangedOutside(s.heap, r.heap, Nodes(s))
  {
    if node.None? then s
    else
      var r := Unlink(s, node.value);
      UnlinkRemoves(s, node.value);
      ShapeIsValid(r, DeleteAt(Nodes(s), IndexOf(Nodes(s), node.value)));
      r
  }

  /** Removing the first member leaves the rest of the list, and the removed
      node's stale `next` link still leads to the new first member: the fact
      `clear` walks by. */
  lemma RemoveFirst<T>(s: List<T>)
    requires Valid(s) && s.first.Some?
    ensures s.first.value in Nodes(s) && s.first.value in s.heap
    ensures Nodes(Remove(s, s.first)) == Nodes(s)[1..]
    ensures Remove(s, s.first).heap[s.first.value].next == Remove(s, s.first).first
  {
    var ns := Nodes(s);
    Neighbours(s, ns, 0);
    var r := Remove(s, s.first);
    assert DeleteAt(ns, 0) == ns[1..];
    if |ns| > 1 {
      Neighbours(r, Nodes(r), 0);
    }
  }

  /** `clear()`: removes `first` and then, through the removed node's stale
      `next`, each following node until none is left. `current` is not
      reset. */
  method Clear<T>(s: List<T>) returns (r: List<T>)
    requires Valid(s)
    ensures Valid(r) && Nodes(r) == [] && r.size == 0 && IsEmpty(r)
    ensures r.first.None? && r.last.None?
    ensures r.current == s.current
    ensures SameObjects(s.heap, r.heap)
    ensures UnchangedOutside(s.heap, r.heap, Nodes(s))
  {
    var node;
    node, r := ClearFirst(s);
    while node.Some?
      invariant Valid(r) && r.current == s.current && SameObjects(s.heap, r.heap)
      invariant UnchangedOutside(s.heap, r.heap, Nodes(s))
      invariant forall x :: x in Nodes(r) ==> x in Nodes(s)
      invariant node.Some? ==> node.value in r.heap && r.heap[node.value].next == r.first
      invariant node.None? ==> Nodes(r) == []
      decreases |Nodes(r)| + (if node.Some? then 1 else 0)
    {
      node, r := ClearStep(r, node.value);
    }
  }

  /** `clear()` writes only to members, so a node detached before it is
      still detached after it and can start the list again. */
  method ClearThenInsertFirst<T>(s: List<T>, added: Ref) returns (r: List<T>)
    requires Valid(s) && Detached(s.heap, added) && added !in Nodes(s)
    ensures Valid(r) && Nodes(r) == [added] && r.size == 1
    ensures r.first == Some(added) && r.last == Some(added) && r.current == Some(added)
  {
    var c := Clear(s);
    r := InsertFirst(c, added);
  }

  /** The start of `clear`: remember `first`, then remove it. */
  method ClearFirst<T>(s: List<T>) returns (node: Option<Ref>, r: List<T>)
    requires Valid(s)
    ensures Valid(r) && r.current == s.current && SameObjects(s.heap, r.heap)
    ensures UnchangedOutside(s.heap, r.heap, Nodes(s))
    ensures forall x :: x in Nodes(r) ==> x in Nodes(s)
    ensures node == s.first
    ensures node.Some? ==> node.value in r.heap && r.heap[node.value].next == r.first
    ensures node.None? ==> Nodes(r) == [] && r == s
  {
    node := s.first;
    if node.Some? {
      RemoveFirst(s);
    }
    r := Remove(s, s.first);
  }

  /** One turn of the loop in `clear`: step to the removed node's `next`,
      which is the first member, and remove it. */
  method ClearStep<T>(s: List<T>, node: Ref) returns (next: Option<Ref>, r: List<T>)
    requires Valid(s) && node in s.heap && s.heap[node].next == s.first
    ensures Valid(r) && r.current == s.current && SameObjects(s.heap, r.heap)
    ensures UnchangedOutside(s.heap, r.heap, Nodes(s))
    ensures forall x :: x in Nodes(r) ==> x in Nodes(s)
    ensures next == s.first
    ensures next.Some? ==> next.value in r.heap && r.heap[next.value].next == r.first
    ensures next.Some? ==> |Nodes(r)| == |Nodes(s)| - 1
    ensures next.None? ==> Nodes(r) == [] && r == s
  {
    next := s.heap[node].next;
    if next.Some? {
      RemoveFirst(s);
    }
    r := Remove(s, next);
  }

  // ---------------------------------------------------------------------
  // The cursor
  // ---------------------------------------------------------------------

  /** `seekFirst()`: the cursor moves to the first member, which is returned. */
  function SeekFirst<T>(s: List<T>): (m: Moved<T>)
    requires Valid(s)
    ensures Valid(m.list) && Nodes(m.list) == Nodes(s)
    ensures m.node == At(Nodes(s), 0)
    ensures m.list == s.(current := m.node)
  {
    CursorMoved(s, s.first);
    Moved(s.(current := s.first), s.first)
  }

  /** `seekLast()`: the cursor moves to the last member, which is returned. */
  function SeekLast<T>(s: List<T>): (m: Moved<T>)
    requires Valid(s)
    ensures Valid(m.list) && Nodes(m.list) == Nodes(s)
    ensures m.node == At(Nodes(s), |Nodes(s)| - 1)
    ensures m.list == s.(current := m.node)
  {
    CursorMoved(s, s.last);
    Moved(s.(current := s.last), s.last)
  }

  /** `seekNext()`: from a member with a successor the cursor steps to it and
      returns it. With no cursor, or at the end, the list is unchanged and
      `last` is returned. A cursor left on a removed node follows that
      node's stale `next` link (`RemoveCurrentThenSeek`). */
  function SeekNext<T>(s: List<T>): (m: Moved<T>)
    requires Valid(s)
    ensures Valid(m.list) && Nodes(m.list) == Nodes(s)
    ensures m.list == s.(current := m.list.current)
    ensures s.current.Some? && s.current.value in Nodes(s) ==>
      var i := IndexOf(Nodes(s), s.current.value);
      if i + 1 < s.size then m.node == Some(Nodes(s)[i + 1]) && m.list.current == m.node
      else m == Moved(s, s.last)
    ensures s.current.None? ==> m == Moved(s, s.last)
    ensures s.current.Some? ==> m.list.current.Some?
  {
    if s.current.None? || s.heap[s.current.value].next.None? then
      CursorNeighbours(s);
      Moved(s, s.last)
    else
      var n := s.heap[s.current.value].next;
      assert LinksIn(s.heap, s.heap[s.current.value]);
      CursorMoved(s, n);
      CursorNeighbours(s);
      Moved(s.(current := n), n)
  }

  /** `seekPrevious()`: from a member with a predecessor the cursor steps to
      it and returns it. With no cursor, or at the front, the list is
      unchanged and `first` is returned. A cursor left on a removed node
      follows that node's stale `previous` link (`RemoveCurrentThenSeek`). */
  function SeekPrevious<T>(s: List<T>): (m: Moved<T>)
    requires Valid(s)
    ensures Valid(m.list) && Nodes(m.list) == Nodes(s)
    ensures m.list == s.(current := m.list.current)
    ensures s.current.Some? && s.current.value in Nodes(s) ==>
      var i := IndexOf(Nodes(s), s.current.value);
      if i > 0 then m.node == Some(Nodes(s)[i - 1]) && m.list.current == m.node
      else m == Moved(s, s.first)
    ensures s.current.None? ==> m == Moved(s, s.first)
    ensures s.current.Some? ==> m.list.current.Some?
  {
    if s.current.None? || s.heap[s.current.value].previous.None? then
      CursorNeighbours(s);
      Moved(s, s.first)
    else
      var p := s.heap[s.current.value].previous;
      assert LinksIn(s.heap, s.heap[s.current.value]);
      CursorMoved(s, p);
      CursorNeighbours(s);
      Moved(s.(current := p), p)
  }

  /** A step forward undone by a step back returns the cursor to where it was. */
  lemma NextThenPrevious<T>(s: List<T>)
    requires Valid(s) && s.current.Some? && s.current.value in Nodes(s)
    requires s.current != s.last
    ensures SeekPrevious(SeekNext(s).list) == Moved(s, s.current)
  {
    var ns := Nodes(s);
    var i := IndexOf(ns, s.current.value);
    IndexOfDistinct(ns, i + 1);
  }

  /** A step back undone by a step forward returns the cursor to where it was. */
  lemma PreviousThenNext<T>(s: List<T>)
    requires Valid(s) && s.current.Some? && s.current.value in Nodes(s)
    requires s.current != s.first
    ensures SeekNext(SeekPrevious(s).list) == Moved(s, s.current)
  {
    var ns := Nodes(s);
    var i := IndexOf(ns, s.current.value);
    IndexOfDistinct(ns, i - 1);
  }

  /** `remove` does not move a cursor that sits on the removed node, and
      the removed node keeps its links: `seekNext()` then reaches the member
      that followed it and `seekPrevious()` the one that preceded it, and at
      an end of the list they return the new `last` or `first`. */
  lemma RemoveCurrentThenSeek<T>(s: List<T>)
    requires Valid(s) && s.current.Some? && s.current.value in Nodes(s)
    ensures var ns, i, r := Nodes(s), IndexOf(Nodes(s), s.current.value), Remove(s, s.current);
      && r.current == s.current && s.current.value !in Nodes(r)
      && (i + 1 < |ns| ==> SeekNext(r) == Moved(r.(current := Some(ns[i + 1])), Some(ns[i + 1])))
      && (i + 1 == |ns| ==> SeekNext(r) == Moved(r, r.last))
      && (i > 0 ==> SeekPrevious(r) == Moved(r.(current := Some(ns[i - 1])), Some(ns[i - 1])))
      && (i == 0 ==> SeekPrevious(r) == Moved(r, r.first))
  {
    var ns, i := Nodes(s), IndexOf(Nodes(s), s.current.value);
    Neighbours(s, ns, i);
    DistinctDelete(ns, i);
  }

  /** `seekNode(index)`: the member at position `index`. Positions `0` and
      `size` return `first` and `last` without moving the cursor; positions
      in between move the cursor there. */
  method SeekNode<T>(s: List<T>, index: int) returns (r: List<T>, found: Result<Option<Ref>, SeekError>)
    requires Valid(s)
    ensures index < 0 || index > s.size ==> r == s && found == Err(IndexOutOfBounds)
    ensures index == 0 ==> r == s && found == Ok(s.first)
    ensures 0 < index == s.size ==> r == s && found == Ok(s.last)
    ensures 0 < index < s.size ==>
      found == Ok(Some(Nodes(s)[index])) && r == s.(current := Some(Nodes(s)[index]))
    ensures Valid(r) && Nodes(r) == Nodes(s)
  {
    if index < 0 || index > s.size {
      return s, Err(IndexOutOfBounds);
    }
    if index == 0 {
      return s, Ok(s.first);
    }
    if index == s.size {
      return s, Ok(s.last);
    }
    var ns := Nodes(s);
    Neighbours(s, ns, 0);
    var count := 1;
    var node := if s.first.Some? then s.heap[s.first.value].next else None;
    while count < index && node.Some?
      invariant 1 <= count <= index
      invariant node == Some(ns[count])
      decreases index - count
    {
      Neighbours(s, ns, count);
      count := count + 1;
      node := s.heap[node.value].next;
    }
    CursorMoved(s, node);
    r := s.(current := node);
    found := Ok(node);
  }

  /** `seekIndex(node)`: the position of `node`, counting from `first`; a node
      that is not a member yields `size + 1`. The list is not changed. */
  method SeekIndex<T>(s: List<T>, node: Ref) returns (c: int)
    requires Valid(s)
    ensures node in Nodes(s) ==> c == IndexOf(Nodes(s), node)
    ensures node !in Nodes(s) ==> c == s.size + 1
  {
    var ns := Nodes(s);
    var n := s.first;
    c := 0;
    while n != Some(node) && c <= s.size
      invariant 0 <= c <= s.size + 1
      invariant n == At(ns, c)
      invariant forall j :: 0 <= j < c && j < |ns| ==> ns[j] != node
      decreases s.size + 1 - c
    {
      if n.Some? {
        Neighbours(s, ns, c);
      }
      n := if n.Some? then s.heap[n.value].next else None;
      c := c + 1;
    }
    if node in ns {
      var k := IndexOf(ns, node);
      assert c == k;
    }
  }

  /** Seeking position `i` and asking for the index of the node found gives `i` back. */
  method SeekNodeThenIndex<T>(s: List<T>, i: int) returns (j: int)
    requires Valid(s) && 0 <= i < s.size
    ensures j == i
  {
    var r, found := SeekNode(s, i);
    var node := found.value.value;
    IndexOfDistinct(Nodes(s), i);
    j := SeekIndex(r, node);
  }

  /** Asking for a member's index and seeking that position finds the same member. */
  method SeekIndexThenNode<T>(s: List<T>, node: Ref) returns (found: Result<Option<Ref>, SeekError>)
    requires Valid(s) && node in Nodes(s)
    ensures found == Ok(Some(node))
  {
    var i := SeekIndex(s, node);
    var r;
    r, found := SeekNode(s, i);
  }
}

=== FILE: history.dfy ===
/** Browser-style history: two stacks with a gap between them holding the
    current item. Each stack is a sequence whose top is at index 0, so a
    push prepends and a pop takes the head. */
module BrowserHistory {
  import opened Wrappers
  import opened Seqs

  /** `back` is the backward stack, `cur` the current item (Kotlin's
      nullable `_C`), `fwd` the forward stack. */
  datatype History<T> = History(back: seq<T>, cur: Option<T>, fwd: seq<T>)

  /** `ArrayDeque.push(null)` throws a `NullPointerException`. */
  datatype Fault = NullElement

  /** The state every public operation keeps: there is something to go
      forward to only when there is a current item to leave behind. */
  predicate Valid<T>(h: History<T>) {
    h.fwd != [] ==> h.cur.Some?
  }

  /** An optional item as a sequence of zero or one items. */
  function Present<T>(o: Option<T>): (s: seq<T>)
    ensures |s| == (if o.Some? then 1 else 0)
    ensures o.Some? ==> s[0] == o.value
  {
    if o.Some? then [o.value] else []
  }

  /** How many items the history holds. */
  function Count<T>(h: History<T>): nat {
    |h.back| + |h.fwd| + |Present(h.cur)|
  }

  /** `History(item)`: the argument is ignored, so every new history is empty. */
  function New<T>(item: Option<T>): (h: History<T>)
    ensures Valid(h) && Count(h) == 0 && Dump(h) == []
    ensures !CanMoveForward(h) && !CanMoveBackward(h) && Current(h).None?
  {
    History([], None, [])
  }

  /** `canMoveForward`. */
  function CanMoveForward<T>(h: History<T>): bool {
    |h.fwd| > 0
  }

  /** `canMoveBackward`. */
  function CanMoveBackward<T>(h: History<T>): bool {
    |h.back| > 0
  }

  /** The `current` getter. */
  function Current<T>(h: History<T>): Option<T> {
    h.cur
  }

  /** The `current` setter: forward history is discarded, a present current
      item is pushed onto the backward stack, and `value` becomes current. */
  function SetCurrent<T>(h: History<T>, value: Option<T>): (r: History<T>)
    ensures Valid(r)
    ensures Current(r) == value && !CanMoveForward(r)
    ensures CanMoveBackward(r) <==> CanMoveBackward(h) || h.cur.Some?
    ensures r.back == Present(h.cur) + h.back
  {
    var f := if CanMoveForward(h) then [] else h.fwd;
    var b := if h.cur.Some? then [h.cur.value] + h.back else h.back;
    History(b, value, f)
  }

  /** `next()`: with a forward item, the current item is pushed back and the
      forward top becomes current; a null current cannot be pushed. With no
      forward item nothing changes. The item `next()` returns is `Current`
      of the result. */
  function Next<T>(h: History<T>): (r: Result<History<T>, Fault>)
    ensures r.Err? <==> CanMoveForward(h) && h.cur.None?
    ensures !CanMoveForward(h) ==> r == Ok(h)
    ensures CanMoveForward(h) && r.Ok? ==>
      && Current(r.value) == Some(h.fwd[0])
      && r.value.fwd == h.fwd[1..]
      && r.value.back == [h.cur.value] + h.back
    ensures r.Ok? && Valid(h) ==> Valid(r.value)
  {
    if CanMoveForward(h) then
      if h.cur.None? then Err(NullElement)
      else Ok(History([h.cur.value] + h.back, Some(h.fwd[0]), h.fwd[1..]))
    else Ok(h)
  }

  /** `previous()`: with a backward item, the current item is pushed forward
      and the backward top becomes current; a null current cannot be pushed.
      With no backward item nothing changes. The item `previous()` returns is
      `Current` of the result. */
  function Previous<T>(h: History<T>): (r: Result<History<T>, Fault>)
    ensures r.Err? <==> CanMoveBackward(h) && h.cur.None?
    ensures !CanMoveBackward(h) ==> r == Ok(h)
    ensures CanMoveBackward(h) && r.Ok? ==>
      && Current(r.value) == Some(h.back[0])
      && r.value.back == h.back[1..]
      && r.value.fwd == [h.cur.value] + h.fwd
    ensures r.Ok? && Valid(h) ==> Valid(r.value)
  {
    if CanMoveBackward(h) then
      if h.cur.None? then Err(NullElement)
      else Ok(History(h.back[1..], Some(h.back[0]), [h.cur.value] + h.fwd))
    else Ok(h)
  }

  /** `dump()`: every item, newest first: the forward stack bottom to top,
      then the current item, then the backward stack top to bottom. */
  function Dump<T>(h: History<T>): (d: seq<T>)
    ensures |d| == Count(h)
    ensures d == Reverse(h.fwd) + Present(h.cur) + h.back
  {
    (if CanMoveForward(h) then Reverse(h.fwd) else [])
      + (if h.cur.Some? then [h.cur.value] else [])
      + (if CanMoveBackward(h) then h.back else [])
  }

  // ---------------------------------------------------------------------
  // Laws
  // ---------------------------------------------------------------------

  /** The move predicates say exactly when a move does not return the
      history unchanged: it moves, or, for `previous()` with a null current
      item, throws. */
  lemma CanMoveIffMoves<T>(h: History<T>)
    requires Valid(h)
    ensures CanMoveForward(h) <==> Next(h) != Ok(h)
    ensures CanMoveBackward(h) <==> Previous(h) != Ok(h)
  {
    if CanMoveForward(h) {
      assert |Next(h).value.fwd| < |h.fwd|;
    }
    if CanMoveBackward(h) && h.cur.Some? {
      assert |Previous(h).value.back| < |h.back|;
    }
  }

  /** Setting the current item drops the forward items from the dump and
      puts the new item, if any, in front of what remains. */
  lemma SetCurrentDump<T>(h: History<T>, value: Option<T>)
    ensures Dump(SetCurrent(h, value)) == Present(value) + Present(h.cur) + h.back
    ensures Count(SetCurrent(h, value)) == Count(h) - |h.fwd| + |Present(value)|
  {
  }

  /** `next()` moves between the stacks without losing, adding or
      reordering any item. */
  lemma NextKeepsDump<T>(h: History<T>)
    requires Next(h).Ok?
    ensures Dump(Next(h).value) == Dump(h) && Count(Next(h).value) == Count(h)
  {
    if CanMoveForward(h) {
      ReverseCons(h.fwd[0], h.fwd[1..]);
      assert h.fwd == [h.fwd[0]] + h.fwd[1..];
    }
  }

  /** `previous()` moves between the stacks without losing, adding or
      reordering any item. */
  lemma PreviousKeepsDump<T>(h: History<T>)
    requires Previous(h).Ok?
    ensures Dump(Previous(h).value) == Dump(h) && Count(Previous(h).value) == Count(h)
  {
    if CanMoveBackward(h) {
      ReverseCons(h.cur.value, h.fwd);
      assert h.back == [h.back[0]] + h.back[1..];
    }
  }

  /** `previous()` then `next()` restores the exact state. */
  lemma PreviousThenNext<T>(h: History<T>)
    requires CanMoveBackward(h) && h.cur.Some?
    ensures Previous(h).Ok? && Next(Previous(h).value) == Ok(h)
  {
    assert h.back == [h.back[0]] + h.back[1..];
  }

  /** `next()` then `previous()` restores the exact state. */
  lemma NextThenPrevious<T>(h: History<T>)
    requires Valid(h) && CanMoveForward(h)
    ensures Next(h).Ok? && Previous(Next(h).value) == Ok(h)
  {
    assert h.fwd == [h.fwd[0]] + h.fwd[1..];
  }

  /** A null current item with somewhere to go back to makes `previous()`
      throw, and that state is reachable through the public setter. */
  lemma NullCurrentBlocksPrevious<T>(a: T)
    ensures var h := SetCurrent(SetCurrent(New(None), Some(a)), None);
      Valid(h) && CanMoveBackward(h) && Previous(h) == Err(NullElement)
  {
  }

  /** Visiting `vs` in order: the setter applied to each item. */
  function VisitAll<T>(h: History<T>, vs: seq<T>): History<T>
    decreases |vs|
  {
    if vs == [] then h else VisitAll(SetCurrent(h, Some(vs[0])), vs[1..])
  }

  /** The history of a browsing session over `vs` standing at position `j`:
      older items behind, newer items ahead. */
  function Position<T>(vs: seq<T>, j: int): (h: History<T>)
    requires 0 <= j < |vs|
    ensures Valid(h) && Current(h) == Some(vs[j])
    ensures CanMoveBackward(h) <==> j > 0
    ensures CanMoveForward(h) <==> j < |vs| - 1
  {
    History(Reverse(vs[..j]), Some(vs[j]), vs[j + 1..])
  }

  /** Visiting a new item at the newest position of a session extends the session. */
  lemma SetCurrentAtEnd<T>(p: seq<T>, v: T)
    requires p != []
    ensures SetCurrent(Position(p, |p| - 1), Some(v)) == Position(p + [v], |p|)
  {
    var last := |p| - 1;
    var q := p + [v];
    assert q[..|p|] == p && q[|p| + 1..] == [] && p[last + 1..] == [];
    ReverseSnoc(p[..last], p[last]);
    assert p[..last] + [p[last]] == p;
  }

  /** Visiting items one after another leaves the history at the last of them. */
  lemma {:induction false} VisitAllFrom<T>(p: seq<T>, vs: seq<T>)
    requires p != []
    ensures VisitAll(Position(p, |p| - 1), vs) == Position(p + vs, |p + vs| - 1)
    decreases |vs|
  {
    if vs == [] {
      assert p + vs == p;
    } else {
      var q := p + [vs[0]];
      SetCurrentAtEnd(p, vs[0]);
      assert q + vs[1..] == p + vs;
      VisitAllFrom(q, vs[1..]);
    }
  }

  /** A new history, after visiting `vs`, stands at the last item visited. */
  lemma VisitFromNew<T>(item: Option<T>, vs: seq<T>)
    requires vs != []
    ensures VisitAll(New(item), vs) == Position(vs, |vs| - 1)
  {
    var h := SetCurrent(New(item), Some(vs[0]));
    assert h == Position([vs[0]], 0);
    VisitAllFrom([vs[0]], vs[1..]);
    assert [vs[0]] + vs[1..] == vs;
  }

  /** One step back moves the session one position back, stopping at the first. */
  lemma PreviousAtPosition<T>(vs: seq<T>, j: int)
    requires 0 <= j < |vs|
    ensures Previous(Position(vs, j)) == Ok(Position(vs, if j > 0 then j - 1 else 0))
  {
    if j > 0 {
      ReverseSnoc(vs[..j - 1], vs[j - 1]);
      assert vs[..j] == vs[..j - 1] + [vs[j - 1]];
      assert vs[j..] == [vs[j]] + vs[j + 1..];
    }
  }

  /** One step forward moves the session one position on, stopping at the last. */
  lemma NextAtPosition<T>(vs: seq<T>, j: int)
    requires 0 <= j < |vs|
    ensures Next(Position(vs, j)) == Ok(Position(vs, if j < |vs| - 1 then j + 1 else j))
  {
    if j < |vs| - 1 {
      ReverseSnoc(vs[..j], vs[j]);
      assert vs[..j + 1] == vs[..j] + [vs[j]];
    }
  }

  /** At every position of a session, `dump()` lists the visits newest first. */
  lemma DumpAtPosition<T>(vs: seq<T>, j: int)
    requires 0 <= j < |vs|
    ensures Dump(Position(vs, j)) == Reverse(vs)
  {
    ReverseSplit(vs, j);
    var h := Position(vs, j);
    assert Present(h.cur) == [vs[j]];
  }

  /** `n` calls of `previous()`, stopping at the first failure. */
  function Back<T>(h: History<T>, n: nat): Result<History<T>, Fault>
    decreases n
  {
    if n == 0 then Ok(h)
    else match Previous(h)
      case Err(e) => Err(e)
      case Ok(h') => Back(h', n - 1)
  }

  /** `n` calls of `next()`, stopping at the first failure. */
  function Forward<T>(h: History<T>, n: nat): Result<History<T>, Fault>
    decreases n
  {
    if n == 0 then Ok(h)
    else match Next(h)
      case Err(e) => Err(e)
      case Ok(h') => Forward(h', n - 1)
  }

  /** `n` steps back from position `j` land on position `max(j - n, 0)`. */
  lemma {:induction false} BackAtPosition<T>(vs: seq<T>, j: int, n: nat)
    requires 0 <= j < |vs|
    ensures Back(Position(vs, j), n) == Ok(Position(vs, if j > n then j - n else 0))
    decreases n
  {
    if n > 0 {
      PreviousAtPosition(vs, j);
      BackAtPosition(vs, if j > 0 then j - 1 else 0, n - 1);
    }
  }

  /** `n` steps forward from position `j` land on position `min(j + n, |vs| - 1)`. */
  lemma {:induction false} ForwardAtPosition<T>(vs: seq<T>, j: int, n: nat)
    requires 0 <= j < |vs|
    ensures Forward(Position(vs, j), n) == Ok(Position(vs, if j + n < |vs| then j + n else |vs| - 1))
    decreases n
  {
    if n > 0 {
      NextAtPosition(vs, j);
      ForwardAtPosition(vs, if j < |vs| - 1 then j + 1 else j, n - 1);
    }
  }

  /** The string session of the history tests: nine visits, one step back,
      ten more back, one forward, four forward, two back, then a dump. */
  lemma BrowsingSession<T>(vs: seq<T>)
    requires |vs| == 9
    ensures var h0 := VisitAll(New(None), vs);
      && !CanMoveForward(h0)
      && Previous(h0) == Ok(Position(vs, 7)) && Current(Position(vs, 7)) == Some(vs[7])
      && CanMoveForward(Position(vs, 7))
      && Back(Position(vs, 7), 10) == Ok(Position(vs, 0)) && !CanMoveBackward(Position(vs, 0))
      && Next(Position(vs, 0)) == Ok(Position(vs, 1)) && Current(Position(vs, 1)) == Some(vs[1])
      && CanMoveBackward(Position(vs, 1))
      && Forward(Position(vs, 1), 4) == Ok(Position(vs, 5)) && Current(Position(vs, 5)) == Some(vs[5])
      && Back(Position(vs, 5), 2) == Ok(Position(vs, 3)) && Current(Position(vs, 3)) == Some(vs[3])
      && Dump(Position(vs, 3)) == Reverse(vs)
  {
    VisitFromNew(None, vs);
    PreviousAtPosition(vs, 8);
    BackAtPosition(vs, 7, 10);
    NextAtPosition(vs, 0);
    ForwardAtPosition(vs, 1, 4);
    BackAtPosition(vs, 5, 2);
    DumpAtPosition(vs, 3);
  }
}

=== FILE: linked_heap.dfy ===
/** The node objects of the intrusive list and the link surgery performed
    on them.

    Kotlin keeps each node's `next`/`previous` links on the node object
    itself. Here the object graph is a value: a `Heap` maps a node's
    identity (`Ref`) to its current field values. Writing a field is a map
    update, so aliasing behaves as it does on the JVM heap. */
module LinkedHeap {
  import opened Wrappers
  import opened Seqs

  /** Object identity of a node; two handles denote the same node iff equal. */
  type Ref = nat

  /** A node: its two mutable links and its (nullable) payload. */
  datatype Node<T> = Node(next: Option<Ref>, previous: Option<Ref>, value: Option<T>)

  /** Every node object in reach, whether or not it is in a list. */
  type Heap<T> = map<Ref, Node<T>>

  /** A node with both links null, as the one-argument `Node` constructor makes it. */
  predicate Detached<T>(heap: Heap<T>, r: Ref) {
    r in heap && heap[r].next.None? && heap[r].previous.None?
  }

  predicate LinksIn<T>(heap: Heap<T>, n: Node<T>) {
    && (n.next.Some? ==> n.next.value in heap)
    && (n.previous.Some? ==> n.previous.value in heap)
  }

  /** No link of any node points outside the heap. */
  predicate Closed<T>(heap: Heap<T>) {
    forall r {:trigger heap[r]} :: r in heap ==> LinksIn(heap, heap[r])
  }

  /** `b` directly follows `a`: `a.next` is `b` and `b.previous` is `a`. */
  predicate Adjacent<T>(heap: Heap<T>, a: Ref, b: Ref) {
    a in heap && b in heap && heap[a].next == Some(b) && heap[b].previous == Some(a)
  }

  /** Consecutive elements of `ns` point at each other in both directions. */
  predicate Linked<T>(heap: Heap<T>, ns: seq<Ref>) {
    && (forall i :: 0 <= i < |ns| ==> ns[i] in heap)
    && (forall i :: 0 <= i < |ns| - 1 ==> Adjacent(heap, ns[i], ns[i + 1]))
  }

  /** The nodes met by following `next` at most `n` times from `from`. */
  function Chain<T>(heap: Heap<T>, from: Option<Ref>, n: nat): seq<Ref>
    decreases n
  {
    if n == 0 || from.None? || from.value !in heap then []
    else [from.value] + Chain(heap, heap[from.value].next, n - 1)
  }

  /** Both heaps hold the same node objects with the same payloads. */
  ghost predicate SameObjects<T>(h: Heap<T>, h': Heap<T>) {
    h.Keys == h'.Keys && forall r :: r in h ==> h'[r].value == h[r].value
  }

  /** Every node outside `touched` is exactly as it was. */
  ghost predicate UnchangedOutside<T>(h: Heap<T>, h': Heap<T>, touched: seq<Ref>) {
    forall r :: r in h && r in h' && r !in touched ==> h'[r] == h[r]
  }

  /** The element just before position `k`, if any. */
  function Before(ns: seq<Ref>, k: int): (r: Option<Ref>)
    ensures r.Some? <==> 0 < k <= |ns|
  {
    if 0 < k <= |ns| then Some(ns[k - 1]) else None
  }

  /** The element at position `k`, if any. */
  function At(ns: seq<Ref>, k: int): (r: Option<Ref>)
    ensures r.Some? <==> 0 <= k < |ns|
  {
    if 0 <= k < |ns| then Some(ns[k]) else None
  }

  /** `x.next = v`. */
  function WithNext<T>(heap: Heap<T>, x: Ref, v: Option<Ref>): Heap<T>
    requires x in heap
  {
    heap[x := heap[x].(next := v)]
  }

  /** `x.previous = v`. */
  function WithPrevious<T>(heap: Heap<T>, x: Ref, v: Option<Ref>): Heap<T>
    requires x in heap
  {
    heap[x := heap[x].(previous := v)]
  }

  // ---------------------------------------------------------------------
  // Splicing a node in and out, at the level of links
  // ---------------------------------------------------------------------

  /** `added` placed between `left` and `right` (either may be null): it
      points at both, they point at it, and no other node changes. */
  function SplicedHeap<T>(heap: Heap<T>, left: Option<Ref>, right: Option<Ref>, added: Ref): (h: Heap<T>)
    requires added in heap
    requires left.Some? ==> left.value in heap && left.value != added
    requires right.Some? ==> right.value in heap && right.value != added
    requires left.Some? && right.Some? ==> left != right
    ensures h.Keys == heap.Keys && SameObjects(heap, h)
    ensures h[added] == heap[added].(previous := left, next := right)
    ensures left.Some? ==> h[left.value] == heap[left.value].(next := Some(added))
    ensures right.Some? ==> h[right.value] == heap[right.value].(previous := Some(added))
    ensures forall r :: r in heap && r != added && Some(r) != left && Some(r) != right ==> h[r] == heap[r]
    ensures Closed(heap) ==> Closed(h)
  {
    var h1 := heap[added := heap[added].(previous := left, next := right)];
    var h2 := if left.Some? then WithNext(h1, left.value, Some(added)) else h1;
    var h := if right.Some? then WithPrevious(h2, right.value, Some(added)) else h2;
    assert Closed(heap) ==> Closed(h) by {
      if Closed(heap) {
        forall r | r in h
          ensures LinksIn(h, h[r])
        {
          assert LinksIn(heap, heap[r]);
        }
      }
    }
    h
  }

  /** `left` and `right` made to point at each other, skipping the node that
      was between them; no other node changes, the skipped one included. */
  function UnlinkedHeap<T>(heap: Heap<T>, left: Option<Ref>, right: Option<Ref>): (h: Heap<T>)
    requires left.Some? ==> left.value in heap
    requires right.Some? ==> right.value in heap
    requires left.Some? && right.Some? ==> left != right
    ensures h.Keys == heap.Keys && SameObjects(heap, h)
    ensures left.Some? ==> h[left.value] == heap[left.value].(next := right)
    ensures right.Some? ==> h[right.value] == heap[right.value].(previous := left)
    ensures forall r :: r in heap && Some(r) != left && Some(r) != right ==> h[r] == heap[r]
    ensures Closed(heap) ==> Closed(h)
  {
    var h1 := if left.Some? then WithNext(heap, left.value, right) else heap;
    var h := if right.Some? then WithPrevious(h1, right.value, left) else h1;
    assert Closed(heap) ==> Closed(h) by {
      if Closed(heap) {
        forall r | r in h
          ensures LinksIn(h, h[r])
        {
          assert LinksIn(heap, heap[r]);
        }
      }
    }
    h
  }

  // ---------------------------------------------------------------------
  // Linked sequences
  // ---------------------------------------------------------------------

  /** Following `next` from the head of a linked sequence walks exactly that sequence. */
  lemma {:induction false} ChainOfLinked<T>(heap: Heap<T>, ns: seq<Ref>)
    requires |ns| > 0 && Linked(heap, ns)
    ensures Chain(heap, Some(ns[0]), |ns|) == ns
  {
    if |ns| > 1 {
      assert Adjacent(heap, ns[0], ns[1]);
      LinkedSlice(heap, ns, 1, |ns|);
      ChainOfLinked(heap, ns[1..]);
    }
  }

  /** Any slice of a linked sequence is linked. */
  lemma LinkedSlice<T>(heap: Heap<T>, ns: seq<Ref>, lo: int, hi: int)
    requires Linked(heap, ns) && 0 <= lo <= hi <= |ns|
    ensures Linked(heap, ns[lo..hi])
  {
    var t := ns[lo..hi];
    forall i | 0 <= i < |t| - 1
      ensures Adjacent(heap, t[i], t[i + 1])
    {
      assert t[i] == ns[lo + i] && t[i + 1] == ns[lo + i + 1];
    }
  }

  /** Two linked sequences joined by one link form a linked sequence. */
  lemma LinkedConcat<T>(heap: Heap<T>, a: seq<Ref>, b: seq<Ref>)
    requires Linked(heap, a) && Linked(heap, b)
    requires a != [] && b != [] ==> Adjacent(heap, a[|a| - 1], b[0])
    ensures Linked(heap, a + b)
  {
    var c := a + b;
    forall i | 0 <= i < |c| - 1
      ensures Adjacent(heap, c[i], c[i + 1])
    {
      if i < |a| - 1 {
        assert c[i] == a[i] && c[i + 1] == a[i + 1];
      } else if i == |a| - 1 {
        assert c[i] == a[|a| - 1] && c[i + 1] == b[0];
      } else {
        assert c[i] == b[i - |a|] && c[i + 1] == b[i - |a| + 1];
      }
    }
  }

  /** A linked sequence stays linked when only its first node's `previous`
      and its last node's `next` may have changed. */
  lemma LinkedFrame<T>(h: Heap<T>, h': Heap<T>, ns: seq<Ref>)
    requires Linked(h, ns) && ns != []
    requires forall i :: 0 < i < |ns| - 1 ==> ns[i] in h' && h'[ns[i]] == h[ns[i]]
    requires ns[0] in h' && ns[|ns| - 1] in h'
    requires |ns| > 1 ==> h'[ns[0]].next == h[ns[0]].next
    requires |ns| > 1 ==> h'[ns[|ns| - 1]].previous == h[ns[|ns| - 1]].previous
    ensures Linked(h', ns)
  {
    forall i | 0 <= i < |ns| - 1
      ensures Adjacent(h', ns[i], ns[i + 1])
    {
      assert Adjacent(h, ns[i], ns[i + 1]);
    }
  }

  /** Splicing a new node between positions `k - 1` and `k` of a linked
      sequence yields a linked sequence with that node at position `k`. */
  lemma SpliceLinked<T>(heap: Heap<T>, ns: seq<Ref>, k: int, added: Ref)
    requires Linked(heap, ns) && Distinct(ns) && 0 <= k <= |ns|
    requires added in heap && added !in ns
    ensures Linked(SplicedHeap(heap, Before(ns, k), At(ns, k), added), InsertAt(ns, k, added))
  {
    var h := SplicedHeap(heap, Before(ns, k), At(ns, k), added);
    var a, b := ns[..k], ns[k..];
    if a != [] {
      LinkedSlice(heap, ns, 0, k);
      LinkedFrame(heap, h, a);
    }
    if b != [] {
      LinkedSlice(heap, ns, k, |ns|);
      LinkedFrame(heap, h, b);
    }
    assert Linked(h, [added]);
    LinkedConcat(h, [added], b);
    LinkedConcat(h, a, [added] + b);
    assert InsertAt(ns, k, added) == a + ([added] + b);
  }

  /** Unlinking the node at position `k` of a linked sequence leaves the
      sequence without it linked. */
  lemma UnspliceLinked<T>(heap: Heap<T>, ns: seq<Ref>, k: int)
    requires Linked(heap, ns) && Distinct(ns) && 0 <= k < |ns|
    ensures Linked(UnlinkedHeap(heap, Before(ns, k), At(ns, k + 1)), DeleteAt(ns, k))
  {
    var h := UnlinkedHeap(heap, Before(ns, k), At(ns, k + 1));
    var a, b := ns[..k], ns[k + 1..];
    if a != [] {
      LinkedSlice(heap, ns, 0, k);
      LinkedFrame(heap, h, a);
    }
    if b != [] {
      LinkedSlice(heap, ns, k + 1, |ns|);
      LinkedFrame(heap, h, b);
    }
    LinkedConcat(h, a, b);
    assert DeleteAt(ns, k) == a + b;
  }
}

=== FILE: seqs.dfy ===
/** Small facts about sequences shared by both containers. */
module Seqs {

  /** No element occurs twice: the sequence is a list of distinct identities. */
  predicate Distinct<X(==)>(s: seq<X>) {
    forall i, j :: 0 <= i < j < |s| ==> s[i] != s[j]
  }

  /** Position of the first occurrence of `x` in `s`. */
  function IndexOf<X(==)>(s: seq<X>, x: X): (i: nat)
    requires x in s
    ensures i < |s| && s[i] == x
    ensures forall j :: 0 <= j < i ==> s[j] != x
  {
    if s[0] == x then 0 else 1 + IndexOf(s[1..], x)
  }

  /** In a sequence of distinct elements, an element's position is its only one. */
  lemma IndexOfDistinct<X>(s: seq<X>, i: int)
    requires Distinct(s) && 0 <= i < |s|
    ensures IndexOf(s, s[i]) == i
  {
  }

  /** `s` read back to front. */
  function Reverse<X>(s: seq<X>): (r: seq<X>)
    ensures |r| == |s|
    ensures forall i :: 0 <= i < |s| ==> r[i] == s[|s| - 1 - i]
  {
    if s == [] then [] else Reverse(s[1..]) + [s[0]]
  }

  /** `s` with `x` placed at position `k`; later elements move up by one. */
  function InsertAt<X>(s: seq<X>, k: int, x: X): (r: seq<X>)
    requires 0 <= k <= |s|
    ensures |r| == |s| + 1 && r[k] == x
    ensures forall i :: 0 <= i < k ==> r[i] == s[i]
    ensures forall i :: k < i < |r| ==> r[i] == s[i - 1]
  {
    s[..k] + [x] + s[k..]
  }

  /** `s` without its element at position `k`; later elements move down by one. */
  function DeleteAt<X>(s: seq<X>, k: int): (r: seq<X>)
    requires 0 <= k < |s|
    ensures |r| == |s| - 1
    ensures forall i :: 0 <= i < k ==> r[i] == s[i]
    ensures forall i :: k <= i < |r| ==> r[i] == s[i + 1]
  {
    s[..k] + s[k + 1..]
  }

  /** Inserting an element that does not occur keeps a sequence distinct. */
  lemma DistinctInsert<X>(s: seq<X>, k: int, x: X)
    requires Distinct(s) && x !in s && 0 <= k <= |s|
    ensures Distinct(InsertAt(s, k, x))
  {
    var t := InsertAt(s, k, x);
    forall i, j | 0 <= i < j < |t|
      ensures t[i] != t[j]
    {
      if i < k && j > k {
        assert t[i] == s[i] && t[j] == s[j - 1];
      } else if i > k {
        assert t[i] == s[i - 1] && t[j] == s[j - 1];
      }
    }
  }

  /** Deleting one position keeps a sequence distinct and drops exactly that element. */
  lemma DistinctDelete<X>(s: seq<X>, k: int)
    requires Distinct(s) && 0 <= k < |s|
    ensures Distinct(DeleteAt(s, k)) && s[k] !in DeleteAt(s, k)
  {
    var t := DeleteAt(s, k);
    forall i, j | 0 <= i < j < |t|
      ensures t[i] != t[j]
    {
      if i < k && j >= k {
        assert t[i] == s[i] && t[j] == s[j + 1];
      } else if i >= k {
        assert t[i] == s[i + 1] && t[j] == s[j + 1];
      }
    }
    forall i | 0 <= i < |t|
      ensures t[i] != s[k]
    {
      if i < k { assert t[i] == s[i]; } else { assert t[i] == s[i + 1]; }
    }
  }

  /** Appending `b` is appending its head, then its tail. */
  lemma AppendHead<X>(a: seq<X>, b: seq<X>)
    requires b != []
    ensures a + b == (a + [b[0]]) + b[1..]
  {
    assert b == [b[0]] + b[1..];
  }

  /** The ends of `s` after an insertion at position `k`. */
  lemma InsertAtEnds<X>(s: seq<X>, k: int, x: X)
    requires 0 <= k <= |s|
    ensures InsertAt(s, k, x)[0] == if k == 0 then x else s[0]
    ensures InsertAt(s, k, x)[|s|] == if k == |s| then x else s[|s| - 1]
  {
  }

  /** Reversing moves a leading element to the end. */
  lemma ReverseCons<X>(x: X, s: seq<X>)
    ensures Reverse([x] + s) == Reverse(s) + [x]
  {
    assert ([x] + s)[1..] == s;
  }

  /** Reversing moves a trailing element to the front. */
  lemma ReverseSnoc<X>(s: seq<X>, x: X)
    ensures Reverse(s + [x]) == [x] + Reverse(s)
  {
    var a, b := Reverse(s + [x]), [x] + Reverse(s);
    forall i | 0 <= i < |a|
      ensures a[i] == b[i]
    {
      if i > 0 {
        assert (s + [x])[|s| - i] == s[|s| - i];
      }
    }
  }

  /** Reversing a concatenation reverses the order of its parts. */
  lemma ReverseConcat<X>(a: seq<X>, b: seq<X>)
    ensures Reverse(a + b) == Reverse(b) + Reverse(a)
  {
    var l, r := Reverse(a + b), Reverse(b) + Reverse(a);
    forall i | 0 <= i < |l|
      ensures l[i] == r[i]
    {
      if i < |b| {
        assert (a + b)[|a| + |b| - 1 - i] == b[|b| - 1 - i];
      } else {
        assert (a + b)[|a| + |b| - 1 - i] == a[|a| + |b| - 1 - i];
      }
    }
  }

  /** Reversing a sequence split around one element. */
  lemma ReverseAround<X>(a: seq<X>, x: X, b: seq<X>)
    ensures Reverse(a + [x] + b) == Reverse(b) + [x] + Reverse(a)
  {
    ReverseConcat(a + [x], b);
    ReverseSnoc(a, x);
  }

  /** Reversing a sequence split at position `j`. */
  lemma ReverseSplit<X>(s: seq<X>, j: int)
    requires 0 <= j < |s|
    ensures Reverse(s) == Reverse(s[j + 1..]) + [s[j]] + Reverse(s[..j])
  {
    SplitAt(s, j);
    ReverseAround(s[..j], s[j], s[j + 1..]);
  }

  /** A sequence is its prefix, the element at `j`, and its suffix. */
  lemma SplitAt<X>(s: seq<X>, j: int)
    requires 0 <= j < |s|
    ensures s == s[..j] + [s[j]] + s[j + 1..]
  {
  }
}

=== FILE: wrappers.dfy ===
/** Optional values and failure-carrying results, standing in for Kotlin's
    nullable references (`T?`) and for the exceptions the containers throw. */
module Wrappers {

  /** `None` plays the role of Kotlin's `null`. */
  datatype Option<+T> = None | Some(value: T)

  /** The outcome of an operation that can throw. */
  datatype Result<+R, +E> = Ok(value: R) | Err(error: E)
}
